=== FILE: README.md ===
# TypeScript intro codelab: repositories and generic helpers, in Dafny

This project models the runtime behaviour of two TypeScript files.

- `src/complex-pets.ts` holds the generic helpers. `findMax` returns the largest element of a
  list of numbers or strings, or `undefined` for an empty list. `TreasureChest` is an
  append-only container. `makePetNoise` picks the noise by the class of the pet.
  `WhiteBoard.draw` and `WhiteBoard.write` hand their argument back.
- `src/delivered-exercise.ts` holds `UserRepository` and `ProductRepository`. Each has six
  operations (`getAll`, `getById`, `create`, `update`, `replace`, `delete`), and each one is a
  single `fetch` call against `{apiUrl}/{users|products}/...`.

Modules:

- `Wrappers`: `Option`, which stands for a TypeScript `T | undefined`.
- `Orders`: the `>` comparison that `findMax` uses. Numbers use numeric order. Strings use
  lexicographic order, where a proper prefix is smaller. The module proves that both are
  strict total orders.
- `ComplexPets`:
  - `findMax` is `Reduce`, a left fold over any "greater than" relation, wrapped as `FindMax`.
    `FindMaxNumber` and `FindMaxString` are its two uses.
  - The chest is a value; `AddItem` returns the chest with the item appended.
  - Pets are a tagged variant.
  - `Draw` and `Write` are the board operations.
- `Entities`: the operation inputs, written out as plain datatypes: `Omit<_, "id">` is a
  draft, `Partial<_>` is a patch, and `Pick<_, "id">` is a reference.
- `Requests`: what the two repositories share.
  - A `Request` is the verb, URL, body and `Content-Type` header handed to `fetch`.
  - `Url` is the URL template, `MethodOf` gives each action's verb, and `Interpolate` gives
    what `${x}` renders.
  - `Interpret` is the rule that turns a response into "throw" or "decode the body".
  - `ParseRoute` reads a URL string back into (resource, action, key). The lemmas
    `RouteOfUrl` and `UrlOfRoute` prove that it inverts `Url` exactly. This is the partner
    that shows the templates are unambiguous as strings.
- `UserRepository` and `ProductRepository`: one module per class. A `Repository` value holds
  only `apiUrl`. Each operation is a pure function from the repository and the operation's
  input to the request it sends. `Respond` maps a response to the operation's outcome.

Some behaviour is modelled as the code has it, even where it looks unintended:

- `delete` sends the literal verb `"DELETED"`. It has no body but still sets
  `Content-Type: application/json`.
- `update` takes a `Partial` input, so the `id` may be missing. In that case the template
  literal renders `.../update/undefined`.
- Only `create` looks at `res.ok`. Every other operation decodes the body whatever the
  status.
- `replace` addresses a user by `identityNumber` and a product by `name`.

Three things a conventional REST client would do are absent from the code. Operations other
than `create` do not fail on a non-success status. `delete` sends `Content-Type` even though it
has no body. A patch without an id is sent anyway. The model follows the code in all three.

## Model

| member | source | states |
|---|---|---|
| ComplexPets.Reduce | src/complex-pets.ts:176-178 | the `reduce` fold, seeded with the first element, always returns one of the list's elements |
| ComplexPets.FindMax | src/complex-pets.ts:172-179 | returns nothing exactly when the list is empty; otherwise returns an element of the list |
| ComplexPets.ReduceIsUpperBound | src/complex-pets.ts:176-178 | for an irreflexive, transitive `>`, no element of the list is strictly greater than the result |
| ComplexPets.ReduceKeepsFirstMaximal | src/complex-pets.ts:177 | because the accumulator changes only on strict `>`, the result is at a position k where every element before k is strictly smaller, so it is the first occurrence of a maximal element |
| ComplexPets.FindMaxNumber | src/complex-pets.ts:172-179 | over numbers: nothing for an empty list; otherwise an element of the list that is `>=` every element |
| ComplexPets.FindMaxString | src/complex-pets.ts:172-179 | over strings: nothing for an empty list; otherwise an element of the list that every element equals or precedes lexicographically |
| ComplexPets.NumbersExample | src/complex-pets.ts:181-182 | `findMax([10, 5, 20, 15])` is 20 |
| ComplexPets.FruitsExample | src/complex-pets.ts:184-185 | `findMax(["apple", "banana", "cherry"])` is "cherry" |
| ComplexPets.NewChest | src/complex-pets.ts:187-188 | a new chest holds no items |
| ComplexPets.AddItem | src/complex-pets.ts:190-192 | `addItem` grows the items by exactly one, leaves the earlier items as they were and puts the new item last |
| ComplexPets.GetItems | src/complex-pets.ts:194-196 | `getItems` hands back the chest's item list as it is held, so it is the list `AddItem` built and the chest is left as it was |
| ComplexPets.AddAllKeepsInsertionOrder | src/complex-pets.ts:188-196 | after any run of `addItem` calls, `getItems` gives the old items followed by the new ones in insertion order |
| ComplexPets.FilledChestReturnsItems | src/complex-pets.ts:187-196 | a new chest filled with xs returns exactly xs from `getItems` |
| ComplexPets.MakePetNoise | src/complex-pets.ts:96-104 | "Meow" exactly for a Persian cat, "Woof" exactly for a beagle dog, and undefined exactly for any other pet |
| ComplexPets.Meow | src/complex-pets.ts:47-49 | a Persian cat's `meow` is "Meow" |
| ComplexPets.Bark | src/complex-pets.ts:68-70 | a beagle dog's `bark` is "Woof" |
| ComplexPets.NoiseIdentifiesPet | src/complex-pets.ts:96-104 | a noise, once made, tells which of the two known pets made it: two pets make the same noise only if they are the same kind |
| ComplexPets.Draw | src/complex-pets.ts:230-233 | `draw` returns the shape it was given, of the same type |
| ComplexPets.Write | src/complex-pets.ts:237-240 | `write` returns the text it was given |
| Orders.NumberGreaterIsTotal | src/complex-pets.ts:177 | `>` on numbers is a strict total order |
| Orders.StringGreaterIsTotal | src/complex-pets.ts:177 | `>` on strings (lexicographic, a prefix is smaller) is a strict total order |
| Requests.Interpolate | src/delivered-exercise.ts:57 | `${x}` renders a present string as itself and a missing one as "undefined" |
| Requests.RouteOfUrl | src/delivered-exercise.ts:37-79 | reading a templated URL back gives the endpoint it was built from, for any base address and any key |
| Requests.UrlOfRoute | src/delivered-exercise.ts:37-79 | every URL string that `ParseRoute` accepts is the template of the endpoint it reads, so `ParseRoute` and the templates are exact inverses on strings |
| Requests.UrlInjective | src/delivered-exercise.ts:37-79 | two endpoints share a URL string exactly when they are the same endpoint |
| Requests.Interpret | src/delivered-exercise.ts:31-133 | throws exactly for a create whose response is not ok, with the create error message; otherwise decodes the response body |
| Requests.StatusIgnoredOutsideCreate | src/delivered-exercise.ts:31-133 | outside create, the outcome depends only on the body and never on the `ok` flag |
| UserRepository.GetAll | src/delivered-exercise.ts:37-41 | GET to `apiUrl + "/users/getall"`, with no body and no headers |
| UserRepository.GetById | src/delivered-exercise.ts:42-46 | GET to `apiUrl + "/users/get/" + id`, with no body and no headers |
| UserRepository.Create | src/delivered-exercise.ts:47-52 | POST to `apiUrl + "/users/create"` with the input record as body and the JSON content type |
| UserRepository.Update | src/delivered-exercise.ts:56-62 | PATCH with the input patch as body, to `.../users/update/` plus the input's own id, or plus "undefined" when the id is missing |
| UserRepository.Replace | src/delivered-exercise.ts:63-71 | PUT with the input record as body, to `.../users/replace/` plus the identity number |
| UserRepository.Delete | src/delivered-exercise.ts:72-79 | the literal verb "DELETED" to `.../users/delete/` plus the id, with no body but with the JSON content type |
| UserRepository.Respond | src/delivered-exercise.ts:37-79 | only create can throw ("Error creating user"), and only when the response is not ok; every other case decodes the body |
| UserRepository.RequestsRouteToTheirEndpoints | src/delivered-exercise.ts:31-79 | each of the six requests routes, under the repository's own `apiUrl`, to its own action on `users` with its own key |
| UserRepository.ReplaceAddressedByIdentityNumber | src/delivered-exercise.ts:63-66 | two replace requests share a URL exactly when the identity numbers agree, so the other fields never affect the address |
| UserRepository.UpdateAddressedById | src/delivered-exercise.ts:56-57 | two update requests share a URL exactly when their ids render the same, so the other patch fields never affect the address |
| ProductRepository.GetAll | src/delivered-exercise.ts:88-92 | GET to `apiUrl + "/products/getall"`, with no body and no headers |
| ProductRepository.GetById | src/delivered-exercise.ts:93-97 | GET to `apiUrl + "/products/get/" + id`, with no body and no headers |
| ProductRepository.Create | src/delivered-exercise.ts:98-103 | POST to `apiUrl + "/products/create"` with the input record as body and the JSON content type |
| ProductRepository.Update | src/delivered-exercise.ts:107-115 | PATCH with the input patch as body, to `.../products/update/` plus the input's own id, or plus "undefined" when the id is missing |
| ProductRepository.Replace | src/delivered-exercise.ts:116-124 | PUT with the input record as body, to `.../products/replace/` plus the product name |
| ProductRepository.Delete | src/delivered-exercise.ts:125-132 | the literal verb "DELETED" to `.../products/delete/` plus the id, with no body but with the JSON content type |
| ProductRepository.Respond | src/delivered-exercise.ts:88-132 | only create can throw ("Error creating product"), and only when the response is not ok; every other case decodes the body |
| ProductRepository.RequestsRouteToTheirEndpoints | src/delivered-exercise.ts:82-132 | each of the six requests routes, under the repository's own `apiUrl`, to its own action on `products` with its own key |
| ProductRepository.ReplaceAddressedByName | src/delivered-exercise.ts:116-119 | two replace requests share a URL exactly when the names agree, so the other fields never affect the address |
| ProductRepository.UpdateAddressedById | src/delivered-exercise.ts:107-110 | two update requests share a URL exactly when their ids render the same, so the other patch fields never affect the address |

## Left out

- `fetch`, Promises and async suspension are not modelled. A request is returned as a value,
  and a response is an input: the `ok` flag plus the body text. A rejected `fetch`, such as an
  unreachable host, is not modelled.
- `JSON.stringify` and `response.json()` are not modelled. A request body is the operation's
  input record itself. A decoded outcome carries the raw body text, and a body that fails to
  parse is not modelled.
- `PawPetShop.sellPet` is left out because it depends on `Math.random`. `myNewPet` and its
  calls at the module's top level are left out too.
- `eat` and `erase` are left out because they only write to the console.
- `getFoodNeeds`, `hasVaccines`, `animalFoodStorage`, `michifusOwner`, the chest instances and
  `triangleCreated` are left out because they are fixed demonstration values.
- Utility types (`Readonly`, `Partial`, `Omit`, `Pick`, `Required`) exist only at compile
  time. They appear only as the datatypes of operation inputs.
- Numbers are unbounded integers, so non-integer numbers (prices, ages, stock counts, `findMax`
  inputs), NaN, ±Infinity, -0 and the loss of precision beyond 2^53 are not modelled.
- ComplexPets.FindMaxString: compares strings by Unicode scalar value, not by UTF-16 code
  unit. The two orders differ only when characters above U+FFFF are compared with characters
  from U+E000 to U+FFFF.
- ComplexPets.FindMax: each use takes a list of one type only. A list that mixes numbers and
  strings, where JavaScript converts between them, is not modelled.
- ComplexPets.AddItem: returns a new chest instead of pushing onto the chest's `#items` in
  place, so a chest shared by two references, where one reference sees the other's
  additions, is not modelled.
- ComplexPets.GetItems: returns the items as a value. In the source, `getItems` returns the
  chest's own array, so a caller that mutates it changes the chest; that aliasing is not
  modelled.
- Requests.UrlInjective: holds for the URL string handed to `fetch`. The URL parsing `fetch`
  does before sending (dropping the fragment after `#`, resolving `..` segments,
  percent-encoding) is not modelled, and keys are interpolated unescaped, so keys containing
  these characters can reach the same server path. For example, `getById("../getall")` and
  `getAll()` both send a GET for `{apiUrl}/users/getall`. The same holds for `RouteOfUrl`,
  `UrlOfRoute` and the natural-key lemmas of the two repositories.
- Entities: an input holds exactly its declared fields. TypeScript also accepts an object with
  extra properties, for example a full entity with its `id` passed to `create` or `replace`,
  and `JSON.stringify` sends those properties too. So the body lacks an id only for inputs
  that hold exactly the declared fields.
- The full `DetailedUserEntity` and `DetailedProductEntity` shapes are not modelled: they are
  only the type a decoded response is cast to, and decoding is left out.
- The repository's constructor is the `Repository` datatype constructor. TypeScript's
  `private` field is not modelled, since a Dafny value cannot be changed anyway.

=== FILE: complex_pets.dfy ===
/**
 The runtime behaviour of src/complex-pets.ts: the generic `findMax` fold, the append-only
 `TreasureChest`, `makePetNoise` dispatching on the kind of pet, and the `WhiteBoard`
 identity operations.
 */
module ComplexPets {
  import opened Wrappers
  import opened Orders

  // ---------------------------------------------------------------- findMax

  /**
   `reduce` without an initial value, with the callback of `findMax`: the accumulator starts
   at the first element and is replaced by the current element only when the current one is
   strictly greater. Defined on the prefix so that the last step is the last callback call.
   */
  function Reduce<T>(xs: seq<T>, gt: (T, T) -> bool): (r: T)
    requires |xs| > 0
    ensures r in xs
    decreases |xs|
  {
    if |xs| == 1 then xs[0]
    else
      var acc := Reduce(xs[..|xs| - 1], gt);
      var current := xs[|xs| - 1];
      if gt(current, acc) then current else acc
  }

  /** `findMax`: nothing for an empty list, otherwise the fold's result, which is one of the elements. */
  function FindMax<T>(xs: seq<T>, gt: (T, T) -> bool): (r: Option<T>)
    ensures r.None? <==> |xs| == 0
    ensures r.Some? ==> r.value in xs
  {
    if |xs| == 0 then None else Some(Reduce(xs, gt))
  }

  /** No element of the list is strictly greater than the fold's result. */
  lemma {:induction false} ReduceIsUpperBound<T(!new)>(xs: seq<T>, gt: (T, T) -> bool)
    requires |xs| > 0
    requires Irreflexive(gt) && Transitive(gt)
    ensures forall i :: 0 <= i < |xs| ==> !gt(xs[i], Reduce(xs, gt))
  {
    if |xs| > 1 {
      var prefix := xs[..|xs| - 1];
      ReduceIsUpperBound(prefix, gt);
      assert forall i :: 0 <= i < |xs| - 1 ==> xs[i] == prefix[i];
    }
  }

  /**
   The fold keeps the FIRST occurrence of a maximal element: it returns xs[k] and every element
   before position k is strictly smaller, so none of them is maximal.
   */
  lemma {:induction false} ReduceKeepsFirstMaximal<T(!new)>(xs: seq<T>, gt: (T, T) -> bool) returns (k: nat)
    requires |xs| > 0
    requires StrictWeakOrder(gt)
    ensures k < |xs| && xs[k] == Reduce(xs, gt)
    ensures forall j :: 0 <= j < k ==> gt(xs[k], xs[j])
  {
    if |xs| == 1 {
      k := 0;
    } else {
      var prefix := xs[..|xs| - 1];
      var acc := Reduce(prefix, gt);
      var current := xs[|xs| - 1];
      k := ReduceKeepsFirstMaximal(prefix, gt);
      assert forall i :: 0 <= i < |xs| - 1 ==> xs[i] == prefix[i];
      if gt(current, acc) {
        ReduceIsUpperBound(prefix, gt);
        k := |xs| - 1;
        forall j | 0 <= j < k
          ensures gt(xs[k], xs[j])
        {
          assert !gt(prefix[j], acc);
        }
      }
    }
  }

  /** `findMax<number>`: the largest element, or nothing for an empty list. */
  function FindMaxNumber(xs: seq<int>): (r: Option<int>)
    ensures r.None? <==> |xs| == 0
    ensures r.Some? ==> r.value in xs && forall x :: x in xs ==> x <= r.value
  {
    if |xs| > 0 then
      NumberGreaterIsTotal();
      ReduceIsUpperBound(xs, NumberGreater);
      FindMax(xs, NumberGreater)
    else
      FindMax(xs, NumberGreater)
  }

  /** `findMax<string>`: the lexicographically largest element, or nothing for an empty list. */
  function FindMaxString(xs: seq<string>): (r: Option<string>)
    ensures r.None? <==> |xs| == 0
    ensures r.Some? ==> r.value in xs && forall x :: x in xs ==> x == r.value || StringLess(x, r.value)
  {
    if |xs| > 0 then
      StringGreaterIsTotal();
      ReduceIsUpperBound(xs, StringGreater);
      FindMax(xs, StringGreater)
    else
      FindMax(xs, StringGreater)
  }

  /** The numeric example of the module: the maximum of [10, 5, 20, 15] is 20. */
  lemma NumbersExample()
    ensures FindMaxNumber([10, 5, 20, 15]) == Some(20)
  {
  }

  /** The string example of the module: the maximum of the three fruits is "cherry". */
  lemma FruitsExample()
    ensures FindMaxString(["apple", "banana", "cherry"]) == Some("cherry")
  {
  }

  // ---------------------------------------------------------------- TreasureChest

  /** A chest is its private item list; a new chest holds nothing. */
  datatype TreasureChest<T> = TreasureChest(items: seq<T>)

  function NewChest<T>(): (c: TreasureChest<T>)
    ensures |GetItems(c)| == 0
  {
    TreasureChest([])
  }

  /** `addItem`: the item goes at the end, the earlier items stay as they were, one more in all. */
  function AddItem<T>(c: TreasureChest<T>, item: T): (c': TreasureChest<T>)
    ensures |GetItems(c')| == |GetItems(c)| + 1
    ensures GetItems(c')[..|GetItems(c)|] == GetItems(c)
    ensures GetItems(c')[|GetItems(c)|] == item
  {
    TreasureChest(c.items + [item])
  }

  /** `getItems`: the chest's own item list, in the order the items were added; the chest is left as it was. */
  function GetItems<T>(c: TreasureChest<T>): (r: seq<T>)
    ensures r == c.items
  {
    c.items
  }

  /** Adds the given items one by one, in order. */
  function AddAll<T>(c: TreasureChest<T>, xs: seq<T>): TreasureChest<T>
    decreases |xs|
  {
    if |xs| == 0 then c else AddAll(AddItem(c, xs[0]), xs[1..])
  }

  /** After any sequence of `addItem` calls, `getItems` lists the chest's old items followed by the new ones in insertion order. */
  lemma {:induction false} AddAllKeepsInsertionOrder<T>(c: TreasureChest<T>, xs: seq<T>)
    ensures GetItems(AddAll(c, xs)) == GetItems(c) + xs
    decreases |xs|
  {
    if |xs| > 0 {
      var c1 := AddItem(c, xs[0]);
      AddAllKeepsInsertionOrder(c1, xs[1..]);
      assert GetItems(c1) == GetItems(c) + [xs[0]];
      assert [xs[0]] + xs[1..] == xs;
    }
  }

  /** A fresh chest filled with xs returns exactly xs. */
  lemma FilledChestReturnsItems<T>(xs: seq<T>)
    ensures GetItems(AddAll(NewChest<T>(), xs)) == xs
  {
    AddAllKeepsInsertionOrder(NewChest<T>(), xs);
  }

  // ---------------------------------------------------------------- makePetNoise

  /**
   A pet tagged with its class. `OtherPet` is any value that satisfies the `Cat` or `Dog`
   interface without being a `PersianCat` or `BeagleDog` instance; which interface it
   satisfies does not change what `makePetNoise` does with it.
   */
  datatype Pet = PersianCat | BeagleDog | OtherPet

  /** `makePetNoise`: a Persian cat meows, a beagle barks, and any other pet falls through to undefined. */
  function MakePetNoise(pet: Pet): (r: Option<string>)
    ensures r == Some("Meow") <==> pet == PersianCat
    ensures r == Some("Woof") <==> pet == BeagleDog
    ensures r.None? <==> pet.OtherPet?
  {
    match pet
    case PersianCat => Some(Meow())
    case BeagleDog => Some(Bark())
    case OtherPet => None
  }

  /** `PersianCat.meow`. */
  function Meow(): (r: string)
    ensures r == "Meow"
  {
    "Meow"
  }

  /** `BeagleDog.bark`. */
  function Bark(): (r: string)
    ensures r == "Woof"
  {
    "Woof"
  }

  /** The noise tells the two known kinds of pet apart. */
  lemma NoiseIdentifiesPet(p: Pet, q: Pet)
    requires MakePetNoise(p).Some?
    ensures MakePetNoise(p) == MakePetNoise(q) <==> p == q
  {
  }

  // ---------------------------------------------------------------- WhiteBoard

  /** `WhiteBoard.draw`: hands the shape back unchanged, whatever its type. */
  function Draw<Shape>(shape: Shape): (r: Shape)
    ensures r == shape
  {
    shape
  }

  /** `WhiteBoard.write`: hands the text back unchanged. */
  function Write(text: string): (r: string)
    ensures r == text
  {
    text
  }
}

=== FILE: entities.dfy ===
/**
 The per-operation input shapes that src/delivered-exercise.ts derives from its user and
 product entities (`Omit<_, "id">`, `Partial<_>`, `Pick<_, "id">`), written out as plain
 datatypes. Numbers are unbounded integers; optional fields are `Option`s.
 */
module Entities {
  import opened Wrappers

  /** `Omit<DetailedUserEntity, "id">`: the input of create and replace. */
  datatype UserDraft = UserDraft(
    name: string,
    surname: string,
    email: Option<string>,
    identityNumber: string,
    age: int,
    phone: string)

  /** `Partial<DetailedUserEntity>`: every field may be missing, the id included. */
  datatype UserPatch = UserPatch(
    id: Option<string>,
    name: Option<string>,
    surname: Option<string>,
    email: Option<string>,
    identityNumber: Option<string>,
    age: Option<int>,
    phone: Option<string>)

  /** `Omit<DetailedProductEntity, "id">`. */
  datatype ProductDraft = ProductDraft(
    name: string,
    description: string,
    price: int,
    stock: int)

  /** `Partial<DetailedProductEntity>`. */
  datatype ProductPatch = ProductPatch(
    id: Option<string>,
    name: Option<string>,
    description: Option<string>,
    price: Option<int>,
    stock: Option<int>)

  /** `Pick<_, "id">`: the input of delete. */
  datatype EntityRef = EntityRef(id: string)
}

=== FILE: orders.dfy ===
/**
 The comparisons behind JavaScript's `>` operator as `findMax` uses it: numeric order on
 numbers and lexicographic order on strings, together with the order properties the
 maximum search relies on.
 */
module Orders {

  /** Nothing is greater than itself. */
  ghost predicate Irreflexive<T(!new)>(gt: (T, T) -> bool) {
    forall x :: !gt(x, x)
  }

  ghost predicate Transitive<T(!new)>(gt: (T, T) -> bool) {
    forall x, y, z :: gt(x, y) && gt(y, z) ==> gt(x, z)
  }

  /** Whenever x is above z, any y is either below x or above z (incomparability is transitive). */
  ghost predicate Splits<T(!new)>(gt: (T, T) -> bool) {
    forall x, y, z :: gt(x, z) ==> gt(x, y) || gt(y, z)
  }

  ghost predicate StrictWeakOrder<T(!new)>(gt: (T, T) -> bool) {
    Irreflexive(gt) && Transitive(gt) && Splits(gt)
  }

  /** Any two distinct values are comparable. */
  ghost predicate Trichotomous<T(!new)>(gt: (T, T) -> bool) {
    forall x, y :: x == y || gt(x, y) || gt(y, x)
  }

  /** `a > b` on numbers (modelled as unbounded integers). */
  predicate NumberGreater(a: int, b: int) {
    a > b
  }

  /** `a < b` on strings: the first differing character decides, and a proper prefix is smaller. */
  predicate StringLess(a: string, b: string) {
    if |a| == 0 then |b| > 0
    else if |b| == 0 then false
    else if a[0] == b[0] then StringLess(a[1..], b[1..])
    else a[0] < b[0]
  }

  /** `a > b` on strings. */
  predicate StringGreater(a: string, b: string) {
    StringLess(b, a)
  }

  lemma NumberGreaterIsTotal()
    ensures StrictWeakOrder(NumberGreater) && Trichotomous(NumberGreater)
  {
  }

  lemma {:induction false} StringLessIrreflexive(a: string)
    ensures !StringLess(a, a)
  {
    if |a| > 0 {
      StringLessIrreflexive(a[1..]);
    }
  }

  lemma {:induction false} StringLessTransitive(a: string, b: string, c: string)
    requires StringLess(a, b) && StringLess(b, c)
    ensures StringLess(a, c)
  {
    if |a| > 0 && a[0] == b[0] && b[0] == c[0] {
      StringLessTransitive(a[1..], b[1..], c[1..]);
    }
  }

  lemma {:induction false} StringLessTrichotomous(a: string, b: string)
    ensures a == b || StringLess(a, b) || StringLess(b, a)
  {
    if |a| > 0 && |b| > 0 && a[0] == b[0] {
      StringLessTrichotomous(a[1..], b[1..]);
      if a[1..] == b[1..] {
        assert a == [a[0]] + a[1..] && b == [b[0]] + b[1..];
      }
    }
  }

  /** Lexicographic string comparison is a strict total order. */
  lemma StringGreaterIsTotal()
    ensures StrictWeakOrder(StringGreater) && Trichotomous(StringGreater)
  {
    forall x: string {
      StringLessIrreflexive(x);
    }
    forall x: string, y: string, z: string | StringGreater(x, y) && StringGreater(y, z) {
      StringLessTransitive(z, y, x);
    }
    forall x: string, y: string {
      StringLessTrichotomous(x, y);
    }
    forall x: string, y: string, z: string | StringGreater(x, z)
      ensures StringGreater(x, y) || StringGreater(y, z)
    {
      StringLessTrichotomous(x, y);
      if StringLess(x, y) {
        StringLessTransitive(z, x, y);
      }
    }
  }
}

=== FILE: product_repository.dfy ===
/**
 `ProductRepository` of src/delivered-exercise.ts. Each operation maps the repository's base
 address and the operation's input to the request it hands to `fetch`; `Respond` says what
 the operation does with the response. `fetch` itself is not modelled.
 */
module ProductRepository {
  import opened Wrappers
  import opened Entities
  import opened Requests

  /** The repository holds only the base address given to its constructor; no operation changes it. */
  datatype Repository = Repository(apiUrl: string)

  /** The input record sent as the JSON body of a product request. */
  datatype Payload = DraftBody(draft: ProductDraft) | PatchBody(patch: ProductPatch)

  const CreateError: string := "Error creating product"

  /** `getAll`: a plain GET of the whole collection. */
  function GetAll(repo: Repository): (r: Request<Payload>)
    ensures r.verb == "GET" && r.body.None? && r.contentType.None?
    ensures r.url == repo.apiUrl + "/products/getall"
  {
    var e := Endpoint(Products, Action.GetAll, None);
    Fetch(Url(repo.apiUrl, e))
  }

  /** `getById`: a plain GET addressed by the id. */
  function GetById(repo: Repository, id: string): (r: Request<Payload>)
    ensures r.verb == "GET" && r.body.None? && r.contentType.None?
    ensures r.url == repo.apiUrl + "/products/get/" + id
  {
    var e := Endpoint(Products, Action.GetById, Some(id));
    Fetch(Url(repo.apiUrl, e))
  }

  /** `create`: a JSON POST of the input record (declared without an id). */
  function Create(repo: Repository, product: ProductDraft): (r: Request<Payload>)
    ensures r.verb == "POST" && r.body == Some(DraftBody(product)) && r.contentType == Some(JsonContentType)
    ensures r.url == repo.apiUrl + "/products/create"
  {
    var e := Endpoint(Products, Action.Create, None);
    FetchWith(Url(repo.apiUrl, e), MethodOf(Action.Create), Some(DraftBody(product)))
  }

  /**
   `update`: a JSON PATCH of the input patch, addressed by the input's own id; an input
   without an id is addressed to ".../update/undefined".
   */
  function Update(repo: Repository, product: ProductPatch): (r: Request<Payload>)
    ensures r.verb == "PATCH" && r.body == Some(PatchBody(product)) && r.contentType == Some(JsonContentType)
    ensures r.url == repo.apiUrl + "/products/update/" + Interpolate(product.id)
  {
    var e := Endpoint(Products, Action.Update, Some(Interpolate(product.id)));
    FetchWith(Url(repo.apiUrl, e), MethodOf(Action.Update), Some(PatchBody(product)))
  }

  /** `replace`: a JSON PUT of the input record (declared without an id), addressed by its name. */
  function Replace(repo: Repository, product: ProductDraft): (r: Request<Payload>)
    ensures r.verb == "PUT" && r.body == Some(DraftBody(product)) && r.contentType == Some(JsonContentType)
    ensures r.url == repo.apiUrl + "/products/replace/" + product.name
  {
    var e := Endpoint(Products, Action.Replace, Some(product.name));
    FetchWith(Url(repo.apiUrl, e), MethodOf(Action.Replace), Some(DraftBody(product)))
  }

  /** `delete`: the literal verb "DELETED", no body, yet the JSON Content-Type header is still set. */
  function Delete(repo: Repository, product: EntityRef): (r: Request<Payload>)
    ensures r.verb == "DELETED" && r.body.None? && r.contentType == Some(JsonContentType)
    ensures r.url == repo.apiUrl + "/products/delete/" + product.id
  {
    var e := Endpoint(Products, Action.Delete, Some(product.id));
    FetchWith(Url(repo.apiUrl, e), MethodOf(Action.Delete), None)
  }

  /** What an operation does with its response: only a failed create throws. */
  function Respond(action: Action, response: Response): (r: Outcome)
    ensures r == RaiseError("Error creating product") <==> action == Action.Create && !response.ok
    ensures r == DecodeBody(response.body) <==> action != Action.Create || response.ok
  {
    Interpret(action, response, CreateError)
  }

  /**
   Read back by `ParseRoute`, every request's URL string lands on the endpoint of its own operation, under the
   repository's base address, with the key the operation puts into its URL (the id,
   or the natural key for `replace`).
   */
  lemma RequestsRouteToTheirEndpoints(repo: Repository, id: string, draft: ProductDraft, patch: ProductPatch, ref: EntityRef)
    ensures ParseRoute(repo.apiUrl, GetAll(repo).url) == Some(Endpoint(Products, Action.GetAll, None))
    ensures ParseRoute(repo.apiUrl, GetById(repo, id).url) == Some(Endpoint(Products, Action.GetById, Some(id)))
    ensures ParseRoute(repo.apiUrl, Create(repo, draft).url) == Some(Endpoint(Products, Action.Create, None))
    ensures ParseRoute(repo.apiUrl, Update(repo, patch).url) == Some(Endpoint(Products, Action.Update, Some(Interpolate(patch.id))))
    ensures ParseRoute(repo.apiUrl, Replace(repo, draft).url) == Some(Endpoint(Products, Action.Replace, Some(draft.name)))
    ensures ParseRoute(repo.apiUrl, Delete(repo, ref).url) == Some(Endpoint(Products, Action.Delete, Some(ref.id)))
  {
    RouteOfUrl(repo.apiUrl, Endpoint(Products, Action.GetAll, None));
    RouteOfUrl(repo.apiUrl, Endpoint(Products, Action.GetById, Some(id)));
    RouteOfUrl(repo.apiUrl, Endpoint(Products, Action.Create, None));
    RouteOfUrl(repo.apiUrl, Endpoint(Products, Action.Update, Some(Interpolate(patch.id))));
    RouteOfUrl(repo.apiUrl, Endpoint(Products, Action.Replace, Some(draft.name)));
    RouteOfUrl(repo.apiUrl, Endpoint(Products, Action.Delete, Some(ref.id)));
  }

  /** Replace addresses a product by name: two drafts share a URL exactly when their names agree. */
  lemma ReplaceAddressedByName(repo: Repository, p1: ProductDraft, p2: ProductDraft)
    ensures Replace(repo, p1).url == Replace(repo, p2).url <==> p1.name == p2.name
  {
    UrlInjective(repo.apiUrl,
      Endpoint(Products, Action.Replace, Some(p1.name)),
      Endpoint(Products, Action.Replace, Some(p2.name)));
  }

  /** Update addresses a product by the id carried in the patch, whatever its other fields. */
  lemma UpdateAddressedById(repo: Repository, p1: ProductPatch, p2: ProductPatch)
    ensures Update(repo, p1).url == Update(repo, p2).url <==> Interpolate(p1.id) == Interpolate(p2.id)
  {
    UrlInjective(repo.apiUrl,
      Endpoint(Products, Action.Update, Some(Interpolate(p1.id))),
      Endpoint(Products, Action.Update, Some(Interpolate(p2.id))));
  }
}

=== FILE: requests.dfy ===
/**
 What the two repositories of src/delivered-exercise.ts share: the request they hand to
 `fetch`, the URL template `{apiUrl}/{resource}/{action}[/{key}]`, the verb of each action,
 and the rule that turns a response into an outcome. `ParseRoute` reads a URL string back
 into its endpoint; the round-trip lemmas show the templates are unambiguous as strings.
 */
module Requests {
  import opened Wrappers

  const JsonContentType: string := "application/json"

  /**
   The arguments of one `fetch` call. `contentType` is the `Content-Type` header when headers
   are passed at all; the body is the operation's input record, standing for its JSON text.
   */
  datatype Request<Body> = Request(verb: string, url: string, body: Option<Body>, contentType: Option<string>)

  /** `fetch(url)` with no options: a GET with no body and no headers. */
  function Fetch<Body>(url: string): Request<Body>
  {
    Request("GET", url, None, None)
  }

  /** `fetch(url, { method: verb, body, headers: { "Content-Type": "application/json" } })`. */
  function FetchWith<Body>(url: string, verb: string, body: Option<Body>): Request<Body>
  {
    Request(verb, url, body, Some(JsonContentType))
  }

  datatype Resource = Users | Products

  datatype Action = GetAll | GetById | Create | Update | Replace | Delete

  /** The path segment naming the resource. */
  function Segment(resource: Resource): string {
    match resource
    case Users => "users"
    case Products => "products"
  }

  /** The path segment naming the action. */
  function ActionName(action: Action): string {
    match action
    case GetAll => "getall"
    case GetById => "get"
    case Create => "create"
    case Update => "update"
    case Replace => "replace"
    case Delete => "delete"
  }

  /**
   The verb each action sends; delete sends the literal, non-standard "DELETED". The verb
   each repository operation sends is stated in that operation's `ensures`.
   */
  function MethodOf(action: Action): string {
    match action
    case GetAll => "GET"
    case GetById => "GET"
    case Create => "POST"
    case Update => "PATCH"
    case Replace => "PUT"
    case Delete => "DELETED"
  }

  /** The actions whose URL ends in an addressing key. */
  predicate Keyed(action: Action) {
    !(action.GetAll? || action.Create?)
  }

  /** One endpoint of the remote service: resource, action, and the key when the action takes one. */
  datatype Endpoint = Endpoint(resource: Resource, action: Action, key: Option<string>) {
    predicate Valid() {
      key.Some? <==> Keyed(action)
    }
  }

  /**
   The template literal `${apiUrl}/${resource}/${action}` with `/${key}` appended for keyed
   actions. `RouteOfUrl` and `UrlOfRoute` state what it means (`ParseRoute` reads it back
   exactly); each repository operation's `ensures` spells out its concrete URL.
   */
  function Url(apiUrl: string, e: Endpoint): string {
    apiUrl + "/" + Segment(e.resource) + "/" + ActionName(e.action)
      + (if e.key.Some? then "/" + e.key.value else "")
  }

  /** What `${x}` renders for an optional string: the string itself, or "undefined" when missing. */
  function Interpolate(x: Option<string>): (r: string)
    ensures x.Some? ==> r == x.value
    ensures x.None? ==> r == "undefined"
  {
    match x
    case Some(s) => s
    case None => "undefined"
  }

  // ---------------------------------------------------------------- routing

  /** Splits s at its first '/': the part before it, and the part after it when there is one. */
  function SplitAtSlash(s: string): (r: (string, Option<string>))
    ensures '/' !in r.0
    ensures r.1.None? ==> r.0 == s
    ensures r.1.Some? ==> s == r.0 + "/" + r.1.value
    decreases |s|
  {
    if |s| == 0 then ("", None)
    else if s[0] == '/' then ("", Some(s[1..]))
    else
      var (head, tail) := SplitAtSlash(s[1..]);
      ([s[0]] + head, tail)
  }

  function ResourceNamed(name: string): Option<Resource> {
    if name == "users" then Some(Users)
    else if name == "products" then Some(Products)
    else None
  }

  function ActionNamed(name: string): Option<Action> {
    if name == "getall" then Some(GetAll)
    else if name == "get" then Some(GetById)
    else if name == "create" then Some(Create)
    else if name == "update" then Some(Update)
    else if name == "replace" then Some(Replace)
    else if name == "delete" then Some(Delete)
    else None
  }

  /** The endpoint named by a resource segment, an action segment and an optional key, if any. */
  function Classify(seg: string, name: string, key: Option<string>): (r: Option<Endpoint>)
    ensures r.Some? ==> r.value.Valid() && r.value.key == key
  {
    var resource := ResourceNamed(seg);
    var action := ActionNamed(name);
    if resource.None? || action.None? || key.Some? != Keyed(action.value) then None
    else Some(Endpoint(resource.value, action.value, key))
  }

  /** Reads a URL under apiUrl as an endpoint: resource segment, action segment, then the rest as the key. */
  function ParseRoute(apiUrl: string, url: string): (r: Option<Endpoint>)
    ensures r.Some? ==> r.value.Valid()
  {
    var base := apiUrl + "/";
    if |url| < |base| || url[..|base|] != base then None
    else
      var (seg, afterSeg) := SplitAtSlash(url[|base|..]);
      if afterSeg.None? then None
      else
        var (name, key) := SplitAtSlash(afterSeg.value);
        Classify(seg, name, key)
  }

  lemma {:induction false} SplitAtSlashJoin(head: string, tail: string)
    requires '/' !in head
    ensures SplitAtSlash(head + "/" + tail) == (head, Some(tail))
  {
    if |head| > 0 {
      SplitAtSlashJoin(head[1..], tail);
      assert (head + "/" + tail)[1..] == head[1..] + "/" + tail;
      assert [head[0]] + head[1..] == head;
    } else {
      assert head + "/" + tail == "/" + tail;
    }
  }

  lemma {:induction false} SplitAtSlashWhole(s: string)
    requires '/' !in s
    ensures SplitAtSlash(s) == (s, None)
  {
    if |s| > 0 {
      SplitAtSlashWhole(s[1..]);
      assert [s[0]] + s[1..] == s;
    }
  }

  lemma NamesHaveNoSlash(e: Endpoint)
    ensures '/' !in Segment(e.resource) && '/' !in ActionName(e.action)
    ensures ResourceNamed(Segment(e.resource)) == Some(e.resource)
    ensures ActionNamed(ActionName(e.action)) == Some(e.action)
  {
  }

  lemma ClassifyNames(seg: string, name: string, key: Option<string>)
    requires Classify(seg, name, key).Some?
    ensures Segment(Classify(seg, name, key).value.resource) == seg
    ensures ActionName(Classify(seg, name, key).value.action) == name
  {
  }

  lemma ClassifyOfNames(e: Endpoint)
    requires e.Valid()
    ensures Classify(Segment(e.resource), ActionName(e.action), e.key) == Some(e)
  {
    NamesHaveNoSlash(e);
  }

  /** Building a URL and routing it gives back the same endpoint. */
  lemma RouteOfUrl(apiUrl: string, e: Endpoint)
    requires e.Valid()
    ensures ParseRoute(apiUrl, Url(apiUrl, e)) == Some(e)
  {
    var base := apiUrl + "/";
    var seg := Segment(e.resource);
    var name := ActionName(e.action);
    var tail := if e.key.Some? then "/" + e.key.value else "";
    var url := Url(apiUrl, e);
    NamesHaveNoSlash(e);
    assert url == base + (seg + "/" + (name + tail));
    assert url[..|base|] == base;
    assert url[|base|..] == seg + "/" + (name + tail);
    SplitAtSlashJoin(seg, name + tail);
    ClassifyOfNames(e);
    if e.key.Some? {
      assert name + tail == name + "/" + e.key.value;
      SplitAtSlashJoin(name, e.key.value);
    } else {
      assert name + tail == name;
      SplitAtSlashWhole(name);
    }
  }

  /** Every URL string `ParseRoute` accepts is the template of the endpoint it reads. */
  lemma UrlOfRoute(apiUrl: string, url: string)
    requires ParseRoute(apiUrl, url).Some?
    ensures Url(apiUrl, ParseRoute(apiUrl, url).value) == url
  {
    var base := apiUrl + "/";
    var split1 := SplitAtSlash(url[|base|..]);
    var seg, after := split1.0, split1.1.value;
    var split2 := SplitAtSlash(after);
    var name, key := split2.0, split2.1;
    assert ParseRoute(apiUrl, url) == Classify(seg, name, key);
    ClassifyNames(seg, name, key);
    var tail := if key.Some? then "/" + key.value else "";
    assert after == name + tail;
    JoinParts(base, url, seg, name + tail);
  }

  /** A URL that starts with base and continues with seg, '/', rest is exactly their concatenation. */
  lemma JoinParts(base: string, url: string, seg: string, rest: string)
    requires |base| <= |url| && url[..|base|] == base
    requires url[|base|..] == seg + "/" + rest
    ensures url == base + seg + "/" + rest
  {
    assert url == url[..|base|] + url[|base|..];
  }

  /** Distinct endpoints never share a URL string. */
  lemma UrlInjective(apiUrl: string, e1: Endpoint, e2: Endpoint)
    requires e1.Valid() && e2.Valid()
    ensures Url(apiUrl, e1) == Url(apiUrl, e2) <==> e1 == e2
  {
    RouteOfUrl(apiUrl, e1);
    RouteOfUrl(apiUrl, e2);
  }

  // ---------------------------------------------------------------- responses

  /** The `ok` flag of the response and its body text. */
  datatype Response = Response(ok: bool, body: string)

  /** What an operation does with the response: throw an `Error`, or decode the body. */
  datatype Outcome = RaiseError(message: string) | DecodeBody(body: string)

  /**
   Only create looks at `ok`: a failed create throws before decoding, and every other action
   (and a successful create) decodes the body whatever the status.
   */
  function Interpret(action: Action, response: Response, createError: string): (r: Outcome)
    ensures r.RaiseError? <==> action == Create && !response.ok
    ensures r.RaiseError? ==> r.message == createError
    ensures r.DecodeBody? ==> r.body == response.body
  {
    if action == Create && !response.ok then RaiseError(createError)
    else DecodeBody(response.body)
  }

  /** Outside create, two responses with the same body lead to the same outcome, whatever their status. */
  lemma StatusIgnoredOutsideCreate(action: Action, r1: Response, r2: Response, createError: string)
    requires action != Create && r1.body == r2.body
    ensures Interpret(action, r1, createError) == Interpret(action, r2, createError)
  {
  }
}

=== FILE: user_repository.dfy ===
/**
 `UserRepository` of src/delivered-exercise.ts. Each operation maps the repository's base
 address and the operation's input to the request it hands to `fetch`; `Respond` says what
 the operation does with the response. `fetch` itself is not modelled.
 */
module UserRepository {
  import opened Wrappers
  import opened Entities
  import opened Requests

  /** The repository holds only the base address given to its constructor; no operation changes it. */
  datatype Repository = Repository(apiUrl: string)

  /** The input record sent as the JSON body of a user request. */
  datatype Payload = DraftBody(draft: UserDraft) | PatchBody(patch: UserPatch)

  const CreateError: string := "Error creating user"

  /** `getAll`: a plain GET of the whole collection. */
  function GetAll(repo: Repository): (r: Request<Payload>)
    ensures r.verb == "GET" && r.body.None? && r.contentType.None?
    ensures r.url == repo.apiUrl + "/users/getall"
  {
    var e := Endpoint(Users, Action.GetAll, None);
    Fetch(Url(repo.apiUrl, e))
  }

  /** `getById`: a plain GET addressed by the id. */
  function GetById(repo: Repository, id: string): (r: Request<Payload>)
    ensures r.verb == "GET" && r.body.None? && r.contentType.None?
    ensures r.url == repo.apiUrl + "/users/get/" + id
  {
    var e := Endpoint(Users, Action.GetById, Some(id));
    Fetch(Url(repo.apiUrl, e))
  }

  /** `create`: a JSON POST of the input record (declared without an id). */
  function Create(repo: Repository, user: UserDraft): (r: Request<Payload>)
    ensures r.verb == "POST" && r.body == Some(DraftBody(user)) && r.contentType == Some(JsonContentType)
    ensures r.url == repo.apiUrl + "/users/create"
  {
    var e := Endpoint(Users, Action.Create, None);
    FetchWith(Url(repo.apiUrl, e), MethodOf(Action.Create), Some(DraftBody(user)))
  }

  /**
   `update`: a JSON PATCH of the input patch, addressed by the input's own id; an input
   without an id is addressed to ".../update/undefined".
   */
  function Update(repo: Repository, user: UserPatch): (r: Request<Payload>)
    ensures r.verb == "PATCH" && r.body == Some(PatchBody(user)) && r.contentType == Some(JsonContentType)
    ensures r.url == repo.apiUrl + "/users/update/" + Interpolate(user.id)
  {
    var e := Endpoint(Users, Action.Update, Some(Interpolate(user.id)));
    FetchWith(Url(repo.apiUrl, e), MethodOf(Action.Update), Some(PatchBody(user)))
  }

  /** `replace`: a JSON PUT of the input record (declared without an id), addressed by its identity number. */
  function Replace(repo: Repository, user: UserDraft): (r: Request<Payload>)
    ensures r.verb == "PUT" && r.body == Some(DraftBody(user)) && r.contentType == Some(JsonContentType)
    ensures r.url == repo.apiUrl + "/users/replace/" + user.identityNumber
  {
    var e := Endpoint(Users, Action.Replace, Some(user.identityNumber));
    FetchWith(Url(repo.apiUrl, e), MethodOf(Action.Replace), Some(DraftBody(user)))
  }

  /** `delete`: the literal verb "DELETED", no body, yet the JSON Content-Type header is still set. */
  function Delete(repo: Repository, user: EntityRef): (r: Request<Payload>)
    ensures r.verb == "DELETED" && r.body.None? && r.contentType == Some(JsonContentType)
    ensures r.url == repo.apiUrl + "/users/delete/" + user.id
  {
    var e := Endpoint(Users, Action.Delete, Some(user.id));
    FetchWith(Url(repo.apiUrl, e), MethodOf(Action.Delete), None)
  }

  /** What an operation does with its response: only a failed create throws. */
  function Respond(action: Action, response: Response): (r: Outcome)
    ensures r == RaiseError("Error creating user") <==> action == Action.Create && !response.ok
    ensures r == DecodeBody(response.body) <==> action != Action.Create || response.ok
  {
    Interpret(action, response, CreateError)
  }

  /**
   Read back by `ParseRoute`, every request's URL string lands on the endpoint of its own operation, under the
   repository's base address, with the key the operation puts into its URL (the id,
   or the natural key for `replace`).
   */
  lemma RequestsRouteToTheirEndpoints(repo: Repository, id: string, draft: UserDraft, patch: UserPatch, ref: EntityRef)
    ensures ParseRoute(repo.apiUrl, GetAll(repo).url) == Some(Endpoint(Users, Action.GetAll, None))
    ensures ParseRoute(repo.apiUrl, GetById(repo, id).url) == Some(Endpoint(Users, Action.GetById, Some(id)))
    ensures ParseRoute(repo.apiUrl, Create(repo, draft).url) == Some(Endpoint(Users, Action.Create, None))
    ensures ParseRoute(repo.apiUrl, Update(repo, patch).url) == Some(Endpoint(Users, Action.Update, Some(Interpolate(patch.id))))
    ensures ParseRoute(repo.apiUrl, Replace(repo, draft).url) == Some(Endpoint(Users, Action.Replace, Some(draft.identityNumber)))
    ensures ParseRoute(repo.apiUrl, Delete(repo, ref).url) == Some(Endpoint(Users, Action.Delete, Some(ref.id)))
  {
    RouteOfUrl(repo.apiUrl, Endpoint(Users, Action.GetAll, None));
    RouteOfUrl(repo.apiUrl, Endpoint(Users, Action.GetById, Some(id)));
    RouteOfUrl(repo.apiUrl, Endpoint(Users, Action.Create, None));
    RouteOfUrl(repo.apiUrl, Endpoint(Users, Action.Update, Some(Interpolate(patch.id))));
    RouteOfUrl(repo.apiUrl, Endpoint(Users, Action.Replace, Some(draft.identityNumber)));
    RouteOfUrl(repo.apiUrl, Endpoint(Users, Action.Delete, Some(ref.id)));
  }

  /** Replace addresses a user by identity number: two drafts share a URL exactly when their identity numbers agree. */
  lemma ReplaceAddressedByIdentityNumber(repo: Repository, u1: UserDraft, u2: UserDraft)
    ensures Replace(repo, u1).url == Replace(repo, u2).url <==> u1.identityNumber == u2.identityNumber
  {
    UrlInjective(repo.apiUrl,
      Endpoint(Users, Action.Replace, Some(u1.identityNumber)),
      Endpoint(Users, Action.Replace, Some(u2.identityNumber)));
  }

  /** Update addresses a user by the id carried in the patch, whatever its other fields. */
  lemma UpdateAddressedById(repo: Repository, p1: UserPatch, p2: UserPatch)
    ensures Update(repo, p1).url == Update(repo, p2).url <==> Interpolate(p1.id) == Interpolate(p2.id)
  {
    UrlInjective(repo.apiUrl,
      Endpoint(Users, Action.Update, Some(Interpolate(p1.id))),
      Endpoint(Users, Action.Update, Some(Interpolate(p2.id))));
  }
}

=== FILE: wrappers.dfy ===
/** Optional values: the model's reading of a TypeScript `T | undefined`. */
module Wrappers {

  datatype Option<+T> = None | Some(value: T)
}
